=== FILE: README.md ===
# pulsews dispatch core in Dafny

pulsews is a load-generation tool for JSON-over-WebSocket servers. Each
client connection receives frames, decodes them as JSON, picks the first
registered `PulseHandler` whose activation rule matches the message, runs that
handler's action on the frame and sends back what the action returned. This
project models the two sequential pieces of that core and proves properties
about them:

- the activation-rule matcher `should_trigger` and its wrapper
  `PulseHandler.is_triggered`: a path of keys walked through a decoded JSON
  message, then a comparison with Python `==`;
- one connection's receive/match/send loop, `PulseClient.rx_tx_loop`, with the
  socket replaced by the sequence of frames the connection delivers. The result
  is the sequence of sent frames and missing-handler warnings, and how the loop
  ended.

Modules, following the source layout:

- `wrappers.dfy` (`Wrappers`): `Option`, and `Result` for a Python call that
  either returns a value or raises.
- `python.dfy` (`Python`): the decoded JSON value (`Json`, floats excluded),
  Python truthiness, Python `==` (`PyEq`: `True == 1`, `False == 0`, lists
  element-wise, dicts ignoring key order), and the exceptions that can end a
  loop. `Canon` is an independent reference for `==`: it rewrites every bool
  into its int.
- `functions.dfy` (`Functions`): `should_trigger`. Python's `key in x` and
  `x[key]` are modelled for every value the walk can meet. For dicts this is a
  key lookup. For lists, `in` tests whether an element `==` the key. For
  strings, `in` is a substring test. None, bools and ints raise TypeError on
  `in`. A list or a string indexed by a string raises TypeError. `Resolve` is
  the reference reading of a path: it only ever descends into dicts.
- `classes.dfy` (`Classes`): `ActivateObject`, `PulseHandler`, `is_triggered`.
- `pulse_client.dfy` (`PulseClient`): the handler scan, one loop iteration
  (`Step`), the whole loop as a fold over frames (`Run`), and two methods that
  follow the source's `for ... else` and `while True` loops and are proved to
  compute the same results.

What the code does beyond what its own docstrings and comments say, and what
the model does accordingly:

- The docstring of `should_trigger` (pulsews/definitions/functions.py:17-21)
  promises a bool, and a TypeError only for a message that is not a dict. The
  guard at line 24 also raises for an empty dict. When the walk meets a
  non-dict with keys left over, `key in value` (line 28) decides. On None, a
  bool or an int it raises TypeError. On a string it is a substring test,
  and on a list it asks whether some element `==` the key. Either is false,
  giving False, or true, and then `value[key]` (line 29) raises TypeError,
  since a string or a list cannot be indexed by a string. The model keeps
  all of these.
- `is_triggered` documents `Raises: None` (pulsews/definitions/classes.py:87-88)
  but passes on every exception of `should_trigger`. With at least one handler
  registered, a frame that decodes to `{}` or to a non-dict therefore ends the
  connection's loop.
- The comment at pulsews/pulse_client.py:65 calls the action "sync for now".
  The action is called synchronously and its reply is sent and awaited before
  the next `recv`.
- Nothing is caught inside the loop (pulsews/pulse_client.py:58-69). A frame
  `json.loads` rejects, a TypeError from `is_triggered` and any exception from
  an action all end it.
- Whatever string the action returns is sent (line 66), an empty one too.
- The action receives the raw frame text (line 65), not the decoded message.
  An action may keep state between calls, in a closure or in the object of a
  bound method. The model threads that state through the loop as a type
  parameter `S`: each call reads it and may update it, and a call that
  raises keeps the changes it made before raising.
- `ActivateObject.value` is annotated `str` (pulsews/definitions/classes.py:23),
  but `is_triggered` passes it to `should_trigger`, whose `expected_value` is
  `Any` (pulsews/definitions/functions.py:6). The model accepts any decoded
  value.

Handlers, handler lists and messages are immutable values in the model. As a
result, `should_trigger` cannot mutate its input, `is_triggered` cannot change
a handler, and the loop cannot change the handler list. Each of these holds by
construction and is not stated as a separate contract. The only thing that
changes from frame to frame is the action state.

## Model

| member | source | states |
|---|---|---|
| Python.PyEqIsCanonEq | pulsews/definitions/functions.py:32 | Python `==` on decoded JSON holds exactly when both values coincide once every bool is read as the int 0 or 1; lists compare element by element, dicts by key set and per-key value |
| Python.PyEqIsEquivalence | pulsews/definitions/functions.py:32 | the final comparison is reflexive, symmetric and transitive |
| Python.CanonOfBoolFree | pulsews/definitions/functions.py:32 | reading bools as ints leaves a value without bools unchanged |
| Python.BoolFreePyEqIsEquality | pulsews/definitions/functions.py:32 | between values containing no bool, Python `==` is exact structural equality |
| Python.PyEqPreservesTruthiness | tests/test_should_trigger.py:33-34 | equal values have the same truth value, so a falsy value never matches a truthy one (0 vs 1, False vs True), while `1 == True` and `0 == False` still hold |
| Python.PyEqNullOrStr | pulsews/definitions/functions.py:32 | None equals only None and a string equals only the identical string |
| Functions.IsSubstringIffOccurs | pulsews/definitions/functions.py:28 | `key in s` on a string holds exactly when the key occurs as a contiguous slice of `s` |
| Functions.ResolveStopsAtDepth | pulsews/definitions/functions.py:27-31 | a path that stops early stops at the level it names: the prefix before that depth reaches a dict lacking the next key, or a value that is not a dict |
| Functions.WalkAgreesWithResolve | pulsews/definitions/functions.py:27-32 | the key-by-key walk compares the reached value with `==` when every key is present, returns False when a key is missing, and on meeting a non-dict raises TypeError (None/bool/int; a string containing the key; a list holding it) or returns False, never True |
| Functions.ShouldTrigger | pulsews/definitions/functions.py:6-32 | the guard's TypeError exactly for an empty or non-dict message; any other TypeError comes only from walking into a non-dict; otherwise True iff every key is present level by level and the reached value `==` the expected one; False for a missing key; with an empty path the whole message is compared |
| Functions.NullExpectedMatchesOnlyPresentNull | pulsews/definitions/functions.py:28-32 | expecting None matches exactly a present key holding None; a missing key gives False even when None is expected |
| Functions.ShouldTriggerTestMatches | tests/test_should_trigger.py:10-24 | the five matching cases of the test table yield True |
| Functions.ShouldTriggerTestNonMatches | tests/test_should_trigger.py:26-34 | wrong value, missing nested key, 0 vs 1 and False vs True yield False |
| Functions.ShouldTriggerTestTypeErrors | tests/test_should_trigger.py:44-53 | None, `[]` and `{}` raise TypeError |
| Classes.IsTriggered | pulsews/definitions/classes.py:76-94 | a handler raises the guard's TypeError exactly for an empty or non-dict message, and triggers exactly when its path resolves through dicts to a value `==` its expected value |
| Classes.IsTriggeredIgnoresAction | pulsews/definitions/classes.py:90-94 | whether a handler triggers does not depend on its action |
| Classes.TypeHandlerTriggers | pulsews/definitions/classes.py:90-94 | on a non-empty dict a `["type"]` handler never raises and triggers exactly when top-level key "type" is present and `==` the expected value |
| PulseClient.ScanEndsOneWay | pulsews/pulse_client.py:62-69 | a scan has one outcome: one first-matching handler, or one first raising handler, or none matching |
| PulseClient.SelectHandler | pulsews/pulse_client.py:62-63 | the chosen handler triggers and every earlier one answered False; None exactly when every handler answered False; an exception is the one raised by the first handler that did not answer False |
| PulseClient.HandleChoosesFirstMatch | pulsews/pulse_client.py:62-69 | only the first triggering handler's action runs, on the raw frame text and the current action state, and its reply is the one frame sent; no match gives exactly one missing-handler warning, no send and an unchanged state; an exception from is_triggered ends the iteration with the state unchanged, one from the action with the state the action left; a sent frame always comes from the first match |
| PulseClient.StepDecodesThenDispatches | pulsews/pulse_client.py:59-69 | a frame is sent exactly when the frame decodes and the first handler to trigger on the decoded message has an action that returns, and the frame sent is that reply; a warning is logged exactly when the frame decodes and no handler triggers; otherwise the iteration raises, because decoding failed or an is_triggered raised first (state unchanged), or because the first match's action raised (the state it left) |
| PulseClient.RunStopsAtFirstRaise | pulsews/pulse_client.py:58-69 | a closed run received every frame and has one event per frame; a raising run received exactly the frames up to the one whose iteration raised: the run on the earlier frames went through and gave exactly the run's events, and the iteration on that frame, from the state they left, raised the run's exception and left the run's final state |
| PulseClient.RunIsStepPerFrame | pulsews/pulse_client.py:58-69 | the frames before frame i all went through and gave exactly the events before event i; event i is what one iteration makes of frame i from the action state those frames left |
| PulseClient.RunAppendClosed | pulsews/pulse_client.py:58-69 | frames are handled strictly one after another: after frames `a` went through with the connection healthy, the run on `a + b` continues with `b` from the action state `a` left |
| PulseClient.RunAppendRaised | pulsews/pulse_client.py:58-69 | once a frame raised, no later frame is ever received: the run on `a + b` is the run on `a` |
| PulseClient.Dispatch | pulsews/pulse_client.py:62-69 | the `for ... else` scan computes exactly the dispatch outcome |
| PulseClient.RxTxLoop | pulsews/pulse_client.py:58-69 | the receive loop produces exactly the events, frame count, stop reason and final action state of the fold, including the state a raising action left |
| PulseClient.NonDictFrame | pulsews/pulse_client.py:60-69 | with handlers registered, a frame decoding to `{}` or a non-dict ends the loop with TypeError after one frame; with none registered it only logs the warning |
| PulseClient.NoHandlersOnlyWarn | pulsews/pulse_client.py:62-69 | with no handlers nothing is ever sent and no action state changes: each decodable frame logs one warning about its own message, and only a decode failure ends the loop early |
| PulseClient.EarlierHandlerWins | pulsews/pulse_client.py:62-67 | when two handlers both trigger, the later one is never selected |
| PulseClient.PingGetsPong | examples/main.py:5-8 | a `["type"] == "ping"` handler turns one ping frame into exactly one sent frame, the action's reply, and leaves the state that call left |
| PulseClient.RaisingActionKeepsItsChanges | pulsews/pulse_client.py:58-66 | when the ping handler's action changes its state and then raises, the loop ends with that exception after the one frame, later frames are never received, and the change is kept |
| PulseClient.UnknownTypeOnlyWarns | pulsews/pulse_client.py:68-69 | a frame of a type no handler expects gives no send, one missing-handler warning and no change to the action state |

## Left out

- WebSocket transport (`connect` and `disconnect` with their close codes at pulsews/pulse_client.py:36-52, `recv` at line 59, `send` at line 66): I/O. Received frames are an input sequence. The end of that sequence stands for `recv` reporting the connection closed. Sends always succeed, so a send failure is not modelled.
- Action results other than `str`: only a `str` result is modelled. `send` (pulsews/pulse_client.py:66) sends `bytes` as a binary frame and an iterable of `str` or `bytes` as a fragmented message, and raises TypeError, ending the loop, for anything else (e.g. None).
- `json.loads` (pulsews/pulse_client.py:60): a foreign library. It is the `Decoder` parameter, which may reject a frame.
- Logging: the debug line at pulsews/pulse_client.py:64 is not modelled. The missing-handler warning is kept, as an event.
- `PulseEngine.run` (pulsews/pulse_engine.py:21-35): its purpose is concurrent fan-out of independent clients with `asyncio.gather`, and its `duration` field is unused. One client's loop is modelled; the pool is not.
- `PulseClient.client_id` and `mean_delay`: never read by the loop.
- `_create_trigger_recursive` (pulsews/definitions/classes.py:41-73): deprecated, and `is_triggered` does not use it. For a one-key path it returns at lines 63-65, having read the message key at position `current_index` of the key list instead of looking up the path's key (line 64). For a longer path whose first key is present, it calls `_create_trigger` (line 70), which no class defines.
- The `since` decorator (pulsews/decorators/__init__.py): it only attaches a version tag and passes calls through.
- The package `__init__` files: they only re-export names. One of them imports a `PulseLocalState` that no module defines, which is a packaging defect and not logic.
- Floats in JSON: numbers are integers, so equalities like `1 == 1.0` are not modelled.
- Binary frames: `recv` (pulsews/pulse_client.py:59) can also return bytes, which `json.loads` accepts and the action then receives as bytes. Frames are modelled as text only.
- Strings holding a lone surrogate, such as the one the JSON escape `\ud800` decodes to: Dafny's `char` is a Unicode scalar value and cannot hold one, so such keys, values and frames are outside the model.
- PulseClient.RunAppendClosed: the action state changes only through this connection's own calls. `PulseEngine.run` hands the same handler list to every client (pulsews/pulse_engine.py:26-29), so a stateful action shared by concurrent clients can also be changed by another connection during the awaits at pulsews/pulse_client.py:59 and 66. That interleaving is not modelled.
- PulseClient.RunIsStepPerFrame: likewise, the state frame i starts from is the one this connection's earlier frames left. A change made by another connection sharing the handlers is not modelled.

=== FILE: classes.dfy ===
/** ActivateObject and PulseHandler (pulsews/definitions/classes.py). */
module Classes {
  import opened Wrappers
  import opened Python
  import opened Functions

  /** The activation condition of a handler: a path of keys and the value
      expected at its end. The field is annotated `str` in the source but any
      decoded value is accepted, so it is a `Json` here. */
  datatype ActivateObject = ActivateObject(path: seq<string>, value: Json)

  /** What a call that raises leaves behind: the exception, and the state as
      the call left it. A Python callable may change its state and then
      raise; the change stays. */
  datatype Raising<S> = Raising(state: S, exception: Exception)

  /** A handler action: any callable taking the raw frame text. `S` is
      whatever the callable can observe and change between calls (a counter
      in a closure, the fields of a bound object); a call reads it, may update
      it, and returns the text to send, or raises. A stateless action returns
      the state unchanged. */
  type Action<!S> = (S, string) -> Result<(S, string), Raising<S>>

  /** A handler: an activation condition bound to an action. Both fields are
      fixed once the value is built. */
  datatype PulseHandler<!S> = PulseHandler(activateObject: ActivateObject, action: Action<S>)

  /** PulseHandler.is_triggered: should_trigger on the handler's own path and
      value. Although documented as raising nothing, it raises TypeError for
      an empty or non-dict message. */
  function IsTriggered<S>(h: PulseHandler<S>, message: Json): (r: Result<bool, Exception>)
    ensures r == Failure(TypeError(NotANonEmptyDict)) <==> !IsNonEmptyDict(message)
    ensures r == Success(true) <==>
      && IsNonEmptyDict(message)
      && Resolve(message, h.activateObject.path).Reached?
      && PyEq(Resolve(message, h.activateObject.path).value, h.activateObject.value)
  {
    ShouldTrigger(message, h.activateObject.path, h.activateObject.value)
  }

  /** Whether a handler triggers depends on its activation condition alone,
      never on its action. */
  lemma IsTriggeredIgnoresAction<S>(a: ActivateObject, f: Action<S>, g: Action<S>, message: Json)
    ensures IsTriggered(PulseHandler(a, f), message) == IsTriggered(PulseHandler(a, g), message)
  {
  }

  /** The usual `["type"]` handler of a message protocol: on a non-empty dict
      it never raises, and it triggers exactly when the top-level key "type"
      is present and `==` to the expected value. */
  lemma TypeHandlerTriggers<S>(h: PulseHandler<S>, message: Json)
    requires h.activateObject.path == ["type"]
    requires IsNonEmptyDict(message)
    ensures IsTriggered(h, message) ==
      Success("type" in message.fields && PyEq(message.fields["type"], h.activateObject.value))
  {
    var p := h.activateObject.path;
    assert p[1..] == [];
    if "type" in message.fields {
      assert Resolve(message, p) == Reached(message.fields["type"]);
    } else {
      assert Resolve(message, p) == Missing(0);
    }
  }
}

=== FILE: functions.dfy ===
/** should_trigger (pulsews/definitions/functions.py): does a decoded message
    hold `expected` at the end of a path of keys? */
module Functions {
  import opened Wrappers
  import opened Python

  /** The only input the guard of should_trigger lets through: `not x` is
      false and `isinstance(x, dict)` holds. */
  predicate IsNonEmptyDict(j: Json) {
    j.Obj? && |j.fields| > 0
  }

  /** `needle` occurs in `hay` starting at index `i`. */
  predicate OccursAt(needle: string, hay: string, i: int) {
    0 <= i && i + |needle| <= |hay| && hay[i..i + |needle|] == needle
  }

  /** Python `needle in hay` on two strings: substring search. The empty
      string occurs in every string. */
  predicate IsSubstring(needle: string, hay: string)
    decreases |hay|
  {
    needle <= hay || (|hay| > 0 && IsSubstring(needle, hay[1..]))
  }

  /** The recursive search finds exactly the positions where `needle` occurs. */
  lemma {:induction false} IsSubstringIffOccurs(needle: string, hay: string)
    ensures IsSubstring(needle, hay) <==> exists i :: OccursAt(needle, hay, i)
    decreases |hay|
  {
    if needle <= hay {
      assert OccursAt(needle, hay, 0);
    } else if |hay| > 0 {
      IsSubstringIffOccurs(needle, hay[1..]);
      if IsSubstring(needle, hay[1..]) {
        var i :| OccursAt(needle, hay[1..], i);
        assert hay[1..][i..i + |needle|] == hay[i + 1..i + 1 + |needle|];
        assert OccursAt(needle, hay, i + 1);
      }
      if exists i :: OccursAt(needle, hay, i) {
        var i :| OccursAt(needle, hay, i);
        assert i != 0;
        SliceOfTail(hay, i, |needle|);
        assert OccursAt(needle, hay[1..], i - 1);
      }
    }
  }

  lemma SliceOfTail(hay: string, i: int, n: nat)
    requires 1 <= i && i + n <= |hay|
    ensures hay[1..][i - 1..i - 1 + n] == hay[i..i + n]
  {
    var shifted, direct := hay[1..][i - 1..i - 1 + n], hay[i..i + n];
    forall k | 0 <= k < n
      ensures shifted[k] == direct[k]
    {
    }
  }

  /** Python `key in x` for a string key: dict membership, list membership
      under `==`, substring search on a string; None, bools and ints are not
      iterable. */
  function Contains(x: Json, key: string): Result<bool, Exception> {
    match x
    case Obj(m) => Success(key in m)
    case Arr(xs) => Success(exists i | 0 <= i < |xs| :: PyEq(xs[i], Str(key)))
    case Str(s) => Success(IsSubstring(key, s))
    case _ => Failure(TypeError(NotIterable))
  }

  /** Python `x[key]` for a string key, once `key in x` held: a dict lookup,
      while lists and strings reject a string index. */
  function Subscript(x: Json, key: string): Result<Json, Exception>
    requires Contains(x, key) == Success(true)
  {
    match x
    case Obj(m) => Success(m[key])
    case _ => Failure(TypeError(NonIntegerIndex))
  }

  /** The `for key in path` loop of should_trigger and its final comparison. */
  function Walk(x: Json, path: seq<string>, expected: Json): Result<bool, Exception>
    decreases |path|
  {
    if |path| == 0 then Success(PyEq(x, expected))
    else
      var present :- Contains(x, path[0]);
      if !present then Success(false)
      else
        var next :- Subscript(x, path[0]);
        Walk(next, path[1..], expected)
  }

  /** Where a path leads when only dicts are descended into. */
  datatype Resolution =
    | Reached(value: Json)            // every key was present
    | Missing(depth: nat)             // path[depth] is absent from the dict reached
    | Blocked(depth: nat, value: Json) // path[depth] remains but `value` is no dict

  function Deeper(r: Resolution): Resolution {
    match r
    case Reached(_) => r
    case Missing(d) => Missing(d + 1)
    case Blocked(d, v) => Blocked(d + 1, v)
  }

  /** Reference reading of an activation path: descend dict by dict. */
  function Resolve(x: Json, path: seq<string>): Resolution
    decreases |path|
  {
    if |path| == 0 then Reached(x)
    else if !x.Obj? then Blocked(0, x)
    else if path[0] !in x.fields then Missing(0)
    else Deeper(Resolve(x.fields[path[0]], path[1..]))
  }

  /** A resolution that stops early stops at the level the path describes: the
      prefix before `depth` reaches a dict lacking `path[depth]`, or a value
      that is no dict at all. */
  lemma {:induction false} ResolveStopsAtDepth(x: Json, path: seq<string>)
    ensures var r := Resolve(x, path);
      r.Missing? ==>
        && r.depth < |path|
        && Resolve(x, path[..r.depth]).Reached?
        && Resolve(x, path[..r.depth]).value.Obj?
        && path[r.depth] !in Resolve(x, path[..r.depth]).value.fields
    ensures var r := Resolve(x, path);
      r.Blocked? ==>
        && r.depth < |path|
        && Resolve(x, path[..r.depth]) == Reached(r.value)
        && !r.value.Obj?
    decreases |path|
  {
    if |path| > 0 && x.Obj? && path[0] in x.fields {
      var rest := path[1..];
      ResolveStopsAtDepth(x.fields[path[0]], rest);
      var r := Resolve(x.fields[path[0]], rest);
      if !r.Reached? {
        assert path[..r.depth + 1][1..] == rest[..r.depth];
      }
    } else if |path| > 0 {
      assert path[..0] == [];
    }
  }

  /** Python's walk agrees with the dict-only reading of the path: a reached
      value is compared with `==`, a missing key gives False, and a walk that
      meets a non-dict gives False or raises, depending on how `in` and `[]`
      treat that value, but never True. */
  lemma {:induction false} WalkAgreesWithResolve(x: Json, path: seq<string>, expected: Json)
    ensures var r := Resolve(x, path);
      r.Reached? ==> Walk(x, path, expected) == Success(PyEq(r.value, expected))
    ensures Resolve(x, path).Missing? ==> Walk(x, path, expected) == Success(false)
    ensures var r := Resolve(x, path);
      r.Blocked? ==>
        && r.depth < |path|
        && Walk(x, path, expected) ==
             if r.value.Null? || r.value.Bool? || r.value.Int? then
               Failure(TypeError(NotIterable))
             else if || (r.value.Str? && IsSubstring(path[r.depth], r.value.s))
                     || (r.value.Arr? && Str(path[r.depth]) in r.value.items) then
               Failure(TypeError(NonIntegerIndex))
             else
               Success(false)
    decreases |path|
  {
    if |path| == 0 {
    } else if !x.Obj? {
      if x.Arr? {
        forall i | 0 <= i < |x.items|
          ensures PyEq(x.items[i], Str(path[0])) <==> x.items[i] == Str(path[0])
        {
          PyEqNullOrStr(x.items[i], Str(path[0]));
        }
      }
    } else if path[0] in x.fields {
      WalkAgreesWithResolve(x.fields[path[0]], path[1..], expected);
    }
  }

  /** should_trigger: TypeError for an empty or non-dict message; otherwise
      True exactly when every key of the path is present, level by level, and
      the value reached is `==` to `expected`. */
  function ShouldTrigger(message: Json, path: seq<string>, expected: Json): (r: Result<bool, Exception>)
    ensures r == Failure(TypeError(NotANonEmptyDict)) <==> !IsNonEmptyDict(message)
    ensures IsNonEmptyDict(message) && Resolve(message, path).Reached? ==>
              r == Success(PyEq(Resolve(message, path).value, expected))
    ensures IsNonEmptyDict(message) && Resolve(message, path).Missing? ==> r == Success(false)
    ensures IsNonEmptyDict(message) && path == [] ==> r == Success(PyEq(message, expected))
    ensures r == Success(true) ==> Resolve(message, path).Reached?
    ensures r.Failure? && IsNonEmptyDict(message) ==> Resolve(message, path).Blocked?
  {
    if !Truthy(message) || !message.Obj? then
      Failure(TypeError(NotANonEmptyDict))
    else
      WalkAgreesWithResolve(message, path, expected);
      Walk(message, path, expected)
  }

  /** Expecting None matches a present None and nothing else; in particular a
      missing key is not None. */
  lemma NullExpectedMatchesOnlyPresentNull(message: Json, path: seq<string>)
    requires IsNonEmptyDict(message)
    ensures ShouldTrigger(message, path, Null) == Success(true) <==> Resolve(message, path) == Reached(Null)
    ensures Resolve(message, path).Missing? ==> ShouldTrigger(message, path, Null) == Success(false)
  {
    if Resolve(message, path).Reached? {
      PyEqNullOrStr(Resolve(message, path).value, Null);
    }
  }

  /** The parametrised cases of the should_trigger test module that match. */
  lemma ShouldTriggerTestMatches()
    ensures ShouldTrigger(Obj(map["a" := Obj(map["b" := Int(10)])]), ["a", "b"], Int(10)) == Success(true)
    ensures ShouldTrigger(Obj(map["x" := Obj(map["y" := Obj(map["z" := Str("ok")])])]),
                          ["x", "y", "z"], Str("ok")) == Success(true)
    ensures ShouldTrigger(Obj(map["user" := Obj(map["address" := Obj(map["street" := Str("Main St")])])]),
                          ["user", "address", "street"], Str("Main St")) == Success(true)
    ensures ShouldTrigger(Obj(map["level1" := Obj(map["level2" := Obj(map["level3" := Int(42)])])]),
                          ["level1", "level2", "level3"], Int(42)) == Success(true)
    ensures ShouldTrigger(Obj(map["outer" := Obj(map["inner" := Null])]), ["outer", "inner"], Null) == Success(true)
  {
    NestedShouldTrigger("a", "b", Int(10), Int(10));
    NestedShouldTrigger3("x", "y", "z", Str("ok"), Str("ok"));
    NestedShouldTrigger3("user", "address", "street", Str("Main St"), Str("Main St"));
    NestedShouldTrigger3("level1", "level2", "level3", Int(42), Int(42));
    NestedShouldTrigger("outer", "inner", Null, Null);
  }

  /** The parametrised cases of the should_trigger test module that must not
      match: a wrong value, a missing key, a falsy int, a falsy bool. */
  lemma ShouldTriggerTestNonMatches()
    ensures ShouldTrigger(Obj(map["a" := Obj(map["b" := Int(1)])]), ["a", "b"], Int(2)) == Success(false)
    ensures ShouldTrigger(Obj(map["user" := Obj(map["address" := Obj(map[])])]),
                          ["user", "address", "street"], Str("Main St")) == Success(false)
    ensures ShouldTrigger(Obj(map["a" := Obj(map["b" := Int(0)])]), ["a", "b"], Int(1)) == Success(false)
    ensures ShouldTrigger(Obj(map["flag" := Bool(false)]), ["flag"], Bool(true)) == Success(false)
  {
    NestedShouldTrigger("a", "b", Int(1), Int(2));
    NestedShouldTrigger("a", "b", Int(0), Int(1));
    var p := ["user", "address", "street"];
    assert p[1..][1..] == ["street"];
    assert Resolve(Obj(map["user" := Obj(map["address" := Obj(map[])])]), p) == Missing(2);
    assert Resolve(Obj(map["flag" := Bool(false)]), ["flag"]) == Reached(Bool(false));
  }

  /** On `{k1: {k2: v}}` the path `[k1, k2]` compares `v` with `expected`. */
  lemma NestedShouldTrigger(k1: string, k2: string, v: Json, expected: Json)
    ensures ShouldTrigger(Obj(map[k1 := Obj(map[k2 := v])]), [k1, k2], expected) == Success(PyEq(v, expected))
  {
    assert [k1, k2][1..] == [k2];
    assert [k2][1..] == [];
    assert Resolve(v, []) == Reached(v);
    assert Resolve(Obj(map[k2 := v]), [k2]) == Deeper(Reached(v));
    assert Resolve(Obj(map[k1 := Obj(map[k2 := v])]), [k1, k2]) == Reached(v);
  }

  /** On `{k1: {k2: {k3: v}}}` the path `[k1, k2, k3]` compares `v` with `expected`. */
  lemma NestedShouldTrigger3(k1: string, k2: string, k3: string, v: Json, expected: Json)
    ensures ShouldTrigger(Obj(map[k1 := Obj(map[k2 := Obj(map[k3 := v])])]), [k1, k2, k3], expected)
            == Success(PyEq(v, expected))
  {
    assert [k1, k2, k3][1..] == [k2, k3];
    assert [k2, k3][1..] == [k3];
    assert [k3][1..] == [];
    assert Resolve(v, []) == Reached(v);
    assert Resolve(Obj(map[k3 := v]), [k3]) == Reached(v);
    assert Resolve(Obj(map[k2 := Obj(map[k3 := v])]), [k2, k3]) == Reached(v);
    assert Resolve(Obj(map[k1 := Obj(map[k2 := Obj(map[k3 := v])])]), [k1, k2, k3]) == Reached(v);
  }

  /** The TypeError cases of the should_trigger test module. */
  lemma ShouldTriggerTestTypeErrors()
    ensures ShouldTrigger(Null, ["a"], Int(1)) == Failure(TypeError(NotANonEmptyDict))
    ensures ShouldTrigger(Arr([]), ["a"], Int(1)) == Failure(TypeError(NotANonEmptyDict))
    ensures ShouldTrigger(Obj(map[]), ["a"], Int(1)) == Failure(TypeError(NotANonEmptyDict))
  {
  }
}

=== FILE: pulse_client.dfy ===
/** The receive/match/send loop of PulseClient.rx_tx_loop
    (pulsews/pulse_client.py), with the socket replaced by the sequence of
    frames the connection delivers and the sequence of events it produces. */
module PulseClient {
  import opened Wrappers
  import opened Python
  import opened Functions
  import opened Classes

  /** json.loads, left abstract: a frame decodes to a value or is rejected. */
  type Decoder = string -> Option<Json>

  /** What one completed loop iteration leaves behind. */
  datatype Event =
    | Sent(frame: string)            // websocket.send of the action's result
    | MissingHandler(message: Json)  // the "is missing handler" warning

  /** Why the loop stopped: recv reported the connection closed after the last
      frame, or an exception escaped an iteration. */
  datatype Stop = Closed | Raised(error: Exception)

  /** A connection's run: the events in order, how many frames were received,
      how the loop ended, and the action state the last received frame left,
      including the state left by an action that raised. */
  datatype Outcome<S> = Outcome(events: seq<Event>, received: nat, stop: Stop, state: S)

  /** Handler `i` is the first, in registration order, to trigger on
      `message`; every earlier one answered False. */
  predicate FirstMatch<S>(hs: seq<PulseHandler<S>>, message: Json, i: int) {
    && 0 <= i < |hs|
    && IsTriggered(hs[i], message) == Success(true)
    && forall k | 0 <= k < i :: IsTriggered(hs[k], message) == Success(false)
  }

  /** Handler `i`'s is_triggered raises `e` before any handler triggered. */
  predicate FirstRaise<S>(hs: seq<PulseHandler<S>>, message: Json, i: int, e: Exception) {
    && 0 <= i < |hs|
    && IsTriggered(hs[i], message) == Failure(e)
    && forall k | 0 <= k < i :: IsTriggered(hs[k], message) == Success(false)
  }

  /** Every handler answered False. */
  predicate NoneMatch<S>(hs: seq<PulseHandler<S>>, message: Json) {
    forall k | 0 <= k < |hs| :: IsTriggered(hs[k], message) == Success(false)
  }

  /** The three ways a scan of the handlers can end exclude one another, and
      each of them singles out one handler. */
  lemma ScanEndsOneWay<S>(hs: seq<PulseHandler<S>>, message: Json, i: int, j: int, e: Exception, e': Exception)
    ensures FirstMatch(hs, message, i) && FirstMatch(hs, message, j) ==> i == j
    ensures FirstRaise(hs, message, i, e) && FirstRaise(hs, message, j, e') ==> i == j && e == e'
    ensures FirstMatch(hs, message, i) ==> !FirstRaise(hs, message, j, e) && !NoneMatch(hs, message)
    ensures FirstRaise(hs, message, i, e) ==> !NoneMatch(hs, message)
  {
  }

  /** The `for handler in ...` scan of lines 62-63: the index of the first
      handler that triggers, None when none does, or the exception an
      is_triggered call raised first. */
  function SelectHandler<S>(hs: seq<PulseHandler<S>>, message: Json): (r: Result<Option<nat>, Exception>)
    ensures r.Success? && r.value.Some? ==> FirstMatch(hs, message, r.value.value)
    ensures r == Success(None) <==> NoneMatch(hs, message)
    ensures r.Failure? ==> exists i :: FirstRaise(hs, message, i, r.error)
    decreases |hs|
  {
    if |hs| == 0 then Success(None)
    else
      match IsTriggered(hs[0], message)
      case Failure(e) =>
        assert FirstRaise(hs, message, 0, e);
        Failure(e)
      case Success(true) => Success(Some(0))
      case Success(false) =>
        match SelectHandler(hs[1..], message)
        case Failure(e) =>
          assert forall i | FirstRaise(hs[1..], message, i, e) :: FirstRaise(hs, message, i + 1, e);
          Failure(e)
        case Success(Some(i)) =>
          assert FirstMatch(hs, message, i + 1);
          Success(Some(i + 1))
        case Success(None) => Success(None)
  }

  /** Lines 62-69 for one decoded message: run the selected handler's action
      on the raw frame text and send its result, or log the missing handler.
      `s` is the action state before the call; the result carries the state
      after it, whether the iteration returns or raises. */
  function Handle<S>(hs: seq<PulseHandler<S>>, message: Json, frame: string, s: S): Result<(S, Event), Raising<S>> {
    match SelectHandler(hs, message)
    case Failure(e) => Failure(Raising(s, e))
    case Success(None) => Success((s, MissingHandler(message)))
    case Success(Some(i)) =>
      match hs[i].action(s, frame)
      case Failure(raised) => Failure(raised)
      case Success((s', reply)) => Success((s', Sent(reply)))
  }

  /** Only the first triggering handler's action runs, on the raw frame text,
      and its result is the one frame sent; with no triggering handler a
      warning about the message is logged, nothing is sent and no action
      state changes; an exception from is_triggered ends the iteration before
      any action runs, and one from the action ends it with whatever state
      the action left. Conversely, every sent frame is the reply of the first
      match and every warning means no handler triggered. */
  lemma HandleChoosesFirstMatch<S>(hs: seq<PulseHandler<S>>, message: Json, frame: string, s: S)
    ensures var r := Handle(hs, message, frame, s);
      && (forall i | FirstMatch(hs, message, i) && hs[i].action(s, frame).Success? ::
            r == Success((hs[i].action(s, frame).value.0, Sent(hs[i].action(s, frame).value.1))))
      && (forall i | FirstMatch(hs, message, i) && hs[i].action(s, frame).Failure? ::
            r == Failure(hs[i].action(s, frame).error))
      && (forall i, e | FirstRaise(hs, message, i, e) :: r == Failure(Raising(s, e)))
      && (NoneMatch(hs, message) ==> r == Success((s, MissingHandler(message))))
      && (r.Success? && r.value.1.Sent? ==>
            exists i :: FirstMatch(hs, message, i) && hs[i].action(s, frame) == Success((r.value.0, r.value.1.frame)))
      && (r.Success? && r.value.1.MissingHandler? ==>
            r.value == (s, MissingHandler(message)) && NoneMatch(hs, message))
  {
    match SelectHandler(hs, message)
    case Failure(e) =>
      forall i, e' | FirstRaise(hs, message, i, e') ensures e' == e {
        var i0 :| FirstRaise(hs, message, i0, e);
        ScanEndsOneWay(hs, message, i, i0, e', e);
      }
    case Success(None) =>
    case Success(Some(i)) =>
      forall i' | FirstMatch(hs, message, i') ensures i' == i {
        ScanEndsOneWay(hs, message, i, i', JSONDecodeError, JSONDecodeError);
      }
  }

  /** One pass through the body of `while True` after recv (lines 59-69):
      decode the frame, then dispatch it. */
  function Step<S>(hs: seq<PulseHandler<S>>, decode: Decoder, s: S, frame: string): Result<(S, Event), Raising<S>> {
    match decode(frame)
    case None => Failure(Raising(s, JSONDecodeError))
    case Some(message) => Handle(hs, message, frame, s)
  }

  /** What one iteration means: matching looks at the decoded message while
      the action gets the raw text. A frame is sent exactly when the frame
      decodes, some handler is the first to trigger on the decoded message,
      and that handler's action returns; the frame sent is the action's
      reply. A warning is logged exactly when the frame decodes and no
      handler triggers; then the action state is untouched. Otherwise the
      iteration raises: the decoder rejected the frame or an is_triggered
      call raised before any handler triggered, both leaving the state as it
      was, or the first triggering handler's action raised, leaving the state
      as that call left it. */
  lemma StepDecodesThenDispatches<S>(hs: seq<PulseHandler<S>>, decode: Decoder, s: S, frame: string)
    ensures var r := Step(hs, decode, s, frame);
      && (decode(frame).None? ==> r == Failure(Raising(s, JSONDecodeError)))
      && (r.Success? && r.value.1.Sent? <==>
            && decode(frame).Some?
            && exists i :: FirstMatch(hs, decode(frame).value, i) && hs[i].action(s, frame).Success?)
      && (r.Success? && r.value.1.Sent? ==>
            exists i :: FirstMatch(hs, decode(frame).value, i)
                        && hs[i].action(s, frame) == Success((r.value.0, r.value.1.frame)))
      && (r.Success? && r.value.1.MissingHandler? <==>
            decode(frame).Some? && NoneMatch(hs, decode(frame).value))
      && (r.Success? && r.value.1.MissingHandler? ==> r.value == (s, MissingHandler(decode(frame).value)))
      && (r.Failure? ==>
            || decode(frame).None?
            || (r.error.state == s && exists i :: FirstRaise(hs, decode(frame).value, i, r.error.exception))
            || (exists i :: FirstMatch(hs, decode(frame).value, i) && hs[i].action(s, frame) == Failure(r.error)))
  {
    match decode(frame)
    case None =>
    case Some(message) =>
      HandleChoosesFirstMatch(hs, message, frame, s);
      match SelectHandler(hs, message)
      case Failure(e) =>
        var i0 :| FirstRaise(hs, message, i0, e);
        ScanEndsOneWay(hs, message, i0, i0, e, e);
      case Success(None) =>
      case Success(Some(i)) =>
        ScanEndsOneWay(hs, message, i, i, JSONDecodeError, JSONDecodeError);
  }

  /** One iteration of a receive loop, seen from outside: given the action
      state and a frame, it either yields the new state and an event, or
      raises, leaving a state too. */
  type Iteration<!S> = (S, string) -> Result<(S, Event), Raising<S>>

  /** Feed frames to an iteration in arrival order, threading the action
      state, until the frames run out or an iteration raises. */
  function Loop<S>(iterate: Iteration<S>, s: S, frames: seq<string>): Outcome<S>
    decreases |frames|
  {
    if |frames| == 0 then Outcome([], 0, Closed, s)
    else
      match iterate(s, frames[0])
      case Failure(raised) => Outcome([], 1, Raised(raised.exception), raised.state)
      case Success((s', event)) =>
        var rest := Loop(iterate, s', frames[1..]);
        Outcome([event] + rest.events, rest.received + 1, rest.stop, rest.state)
  }

  /** The loop over the frames a connection delivers: Step folded over them,
      stopping at the first exception. */
  function Run<S>(hs: seq<PulseHandler<S>>, decode: Decoder, s: S, frames: seq<string>): Outcome<S> {
    Loop((s': S, frame: string) => Step(hs, decode, s', frame), s, frames)
  }

  /** Run on a non-empty sequence of frames: the first frame's iteration,
      then, if it went through, the run on the rest from the state it left. */
  lemma RunFirstFrame<S>(hs: seq<PulseHandler<S>>, decode: Decoder, s: S, frames: seq<string>)
    requires |frames| > 0
    ensures var st := Step(hs, decode, s, frames[0]);
      && (st.Failure? ==> Run(hs, decode, s, frames) == Outcome([], 1, Raised(st.error.exception), st.error.state))
      && (st.Success? ==>
            var rest := Run(hs, decode, st.value.0, frames[1..]);
            Run(hs, decode, s, frames) == Outcome([st.value.1] + rest.events, rest.received + 1, rest.stop, rest.state))
  {
  }

  /** How a fold ends, for any iteration: a fold that raised went through
      every frame before the last one it received, and the iteration on that
      last frame, from the state those frames left, raised the fold's
      exception and left the fold's final state. */
  lemma {:induction false} LoopStopsAtFirstRaise<S>(iterate: Iteration<S>, s: S, frames: seq<string>)
    ensures var o := Loop(iterate, s, frames);
      && o.received <= |frames|
      && (o.stop.Closed? ==> o.received == |frames| && |o.events| == |frames|)
      && (o.stop.Raised? ==>
            && 0 < o.received
            && |o.events| == o.received - 1
            && var before := Loop(iterate, s, frames[..o.received - 1]);
               && before == Outcome(o.events, o.received - 1, Closed, before.state)
               && iterate(before.state, frames[o.received - 1]) == Failure(Raising(o.state, o.stop.error)))
    decreases |frames|
  {
    if |frames| > 0 {
      var o := Loop(iterate, s, frames);
      var st := iterate(s, frames[0]);
      if st.Failure? {
        assert frames[..0] == [];
      } else {
        var s', event := st.value.0, st.value.1;
        LoopStopsAtFirstRaise(iterate, s', frames[1..]);
        var rest := Loop(iterate, s', frames[1..]);
        if o.stop.Raised? {
          var n := o.received - 1;
          assert frames[n] == frames[1..][n - 1];
          var upto := frames[..n];
          assert upto[0] == frames[0] && upto[1..] == frames[1..][..n - 1];
          var restBefore := Loop(iterate, s', frames[1..][..n - 1]);
          assert Loop(iterate, s, upto) ==
            Outcome([event] + restBefore.events, restBefore.received + 1, restBefore.stop, restBefore.state);
        }
      }
    }
  }

  /** A fold, frame by frame, for any iteration. */
  lemma {:induction false} LoopIsIterationPerFrame<S>(iterate: Iteration<S>, s: S, frames: seq<string>, i: nat)
    requires i < |Loop(iterate, s, frames).events|
    ensures i < |frames|
    ensures var o, before := Loop(iterate, s, frames), Loop(iterate, s, frames[..i]);
      && before.stop.Closed?
      && before.events == o.events[..i]
      && iterate(before.state, frames[i]) == Success((Loop(iterate, s, frames[..i + 1]).state, o.events[i]))
    decreases |frames|
  {
    var st := iterate(s, frames[0]);
    var s', event := st.value.0, st.value.1;
    var rest := Loop(iterate, s', frames[1..]);
    var one := frames[..1];
    assert one[0] == frames[0] && one[1..] == [];
    if i == 0 {
      assert frames[..0] == [];
    } else {
      LoopIsIterationPerFrame(iterate, s', frames[1..], i - 1);
      var upto, upto1 := frames[..i], frames[..i + 1];
      assert upto[0] == frames[0] && upto[1..] == frames[1..][..i - 1];
      assert upto1[0] == frames[0] && upto1[1..] == frames[1..][..i];
      assert frames[i] == frames[1..][i - 1];
      assert ([event] + rest.events)[..i] == [event] + rest.events[..i - 1];
    }
  }

  /** A fold over `a + b` whose part over `a` went through resumes with `b`
      from the state `a` left, for any iteration. */
  lemma {:induction false} LoopAppendClosed<S>(iterate: Iteration<S>, s: S, a: seq<string>, b: seq<string>)
    requires Loop(iterate, s, a).stop.Closed?
    ensures var la := Loop(iterate, s, a);
      var lb := Loop(iterate, la.state, b);
      Loop(iterate, s, a + b) == Outcome(la.events + lb.events, |a| + lb.received, lb.stop, lb.state)
    decreases |a|
  {
    if |a| == 0 {
      assert a + b == b;
    } else {
      var ab := a + b;
      assert ab[0] == a[0] && ab[1..] == a[1..] + b;
      var st := iterate(s, a[0]).value;
      LoopAppendClosed(iterate, st.0, a[1..], b);
      var rest := Loop(iterate, st.0, a[1..]);
      var lb := Loop(iterate, rest.state, b);
      assert [st.1] + (rest.events + lb.events) == ([st.1] + rest.events) + lb.events;
    }
  }

  /** A fold over `a + b` that raised within `a` never reaches `b`, for any
      iteration. */
  lemma {:induction false} LoopAppendRaised<S>(iterate: Iteration<S>, s: S, a: seq<string>, b: seq<string>)
    requires Loop(iterate, s, a).stop.Raised?
    ensures Loop(iterate, s, a + b) == Loop(iterate, s, a)
    decreases |a|
  {
    var ab := a + b;
    assert ab[0] == a[0];
    assert ab[1..] == a[1..] + b;
    var st := iterate(s, a[0]);
    if st.Success? {
      LoopAppendRaised(iterate, st.value.0, a[1..], b);
    }
  }

  /** How a run ends: one that ends with the connection closed received every
      frame and has one event per frame; one that raises received exactly
      the frames up to the one whose iteration raised. The frames before that
      one all went through and gave exactly the run's events; the iteration
      on it, from the action state they left, raised the run's exception and
      left the run's final state. */
  lemma RunStopsAtFirstRaise<S>(hs: seq<PulseHandler<S>>, decode: Decoder, s: S, frames: seq<string>)
    ensures var o := Run(hs, decode, s, frames);
      && o.received <= |frames|
      && (o.stop.Closed? ==> o.received == |frames| && |o.events| == |frames|)
      && (o.stop.Raised? ==>
            && 0 < o.received
            && |o.events| == o.received - 1
            && var before := Run(hs, decode, s, frames[..o.received - 1]);
               && before == Outcome(o.events, o.received - 1, Closed, before.state)
               && Step(hs, decode, before.state, frames[o.received - 1]) == Failure(Raising(o.state, o.stop.error)))
  {
    LoopStopsAtFirstRaise((s': S, frame: string) => Step(hs, decode, s', frame), s, frames);
  }

  /** Frame by frame: the events before frame `i` are those of the run on the
      frames before it, which went through, and event `i` is what one
      iteration makes of frame `i` from the action state those frames left. */
  lemma RunIsStepPerFrame<S>(hs: seq<PulseHandler<S>>, decode: Decoder, s: S, frames: seq<string>, i: nat)
    requires i < |Run(hs, decode, s, frames).events|
    ensures i < |frames|
    ensures var o, before := Run(hs, decode, s, frames), Run(hs, decode, s, frames[..i]);
      && before.stop.Closed?
      && before.events == o.events[..i]
      && Step(hs, decode, before.state, frames[i])
           == Success((Run(hs, decode, s, frames[..i + 1]).state, o.events[i]))
  {
    LoopIsIterationPerFrame((s': S, frame: string) => Step(hs, decode, s', frame), s, frames, i);
  }

  /** Frames are handled strictly one after another: when the frames of `a`
      all went through with the connection healthy, running on `a + b`
      continues with `b` from the action state `a` left. */
  lemma RunAppendClosed<S>(hs: seq<PulseHandler<S>>, decode: Decoder, s: S, a: seq<string>, b: seq<string>)
    requires Run(hs, decode, s, a).stop.Closed?
    ensures var ra := Run(hs, decode, s, a);
      var rb := Run(hs, decode, ra.state, b);
      Run(hs, decode, s, a + b) == Outcome(ra.events + rb.events, |a| + rb.received, rb.stop, rb.state)
  {
    LoopAppendClosed((s': S, frame: string) => Step(hs, decode, s', frame), s, a, b);
  }

  /** Once a frame of `a` raised, the loop is over: whatever frames `b` the
      connection would have delivered next are never received. */
  lemma RunAppendRaised<S>(hs: seq<PulseHandler<S>>, decode: Decoder, s: S, a: seq<string>, b: seq<string>)
    requires Run(hs, decode, s, a).stop.Raised?
    ensures Run(hs, decode, s, a + b) == Run(hs, decode, s, a)
  {
    LoopAppendRaised((s': S, frame: string) => Step(hs, decode, s', frame), s, a, b);
  }

  /** The handler scan of lines 62-69 as the source writes it, a `for` loop
      with an `else` branch. */
  method Dispatch<S>(hs: seq<PulseHandler<S>>, message: Json, frame: string, s: S)
    returns (r: Result<(S, Event), Raising<S>>)
    ensures r == Handle(hs, message, frame, s)
  {
    var k := 0;
    while k < |hs|
      invariant 0 <= k <= |hs|
      invariant forall m | 0 <= m < k :: IsTriggered(hs[m], message) == Success(false)
    {
      var triggered := IsTriggered(hs[k], message);
      if triggered.Failure? {
        assert FirstRaise(hs, message, k, triggered.error);
        HandleChoosesFirstMatch(hs, message, frame, s);
        return Failure(Raising(s, triggered.error));
      }
      if triggered.value {
        assert FirstMatch(hs, message, k);
        HandleChoosesFirstMatch(hs, message, frame, s);
        var result := hs[k].action(s, frame);
        if result.Failure? {
          return Failure(result.error);
        }
        return Success((result.value.0, Sent(result.value.1)));
      }
      k := k + 1;
    }
    HandleChoosesFirstMatch(hs, message, frame, s);
    return Success((s, MissingHandler(message)));
  }

  /** Prepend what earlier frames produced to the outcome of the later ones. */
  function After<S>(events: seq<Event>, received: nat, later: Outcome<S>): Outcome<S> {
    Outcome(events + later.events, received + later.received, later.stop, later.state)
  }

  /** rx_tx_loop (lines 58-69) over the frames the connection delivers,
      starting from action state `s0`: it produces exactly the outcome of
      Run. */
  method RxTxLoop<S>(hs: seq<PulseHandler<S>>, decode: Decoder, s0: S, frames: seq<string>)
    returns (events: seq<Event>, received: nat, stop: Stop, state: S)
    ensures Outcome(events, received, stop, state) == Run(hs, decode, s0, frames)
  {
    events := [];
    received := 0;
    state := s0;
    while received < |frames|
      invariant received <= |frames|
      invariant Run(hs, decode, s0, frames) == After(events, received, Run(hs, decode, state, frames[received..]))
    {
      var frame := frames[received];
      assert frames[received..][0] == frame;
      assert frames[received..][1..] == frames[received + 1..];
      RunFirstFrame(hs, decode, state, frames[received..]);
      received := received + 1;
      var decoded := decode(frame);
      if decoded.None? {
        stop := Raised(JSONDecodeError);
        return;
      }
      var r := Dispatch(hs, decoded.value, frame, state);
      if r.Failure? {
        state := r.error.state;
        stop := Raised(r.error.exception);
        return;
      }
      var later := Run(hs, decode, r.value.0, frames[received..]);
      assert events + [r.value.1] + later.events == events + ([r.value.1] + later.events);
      state := r.value.0;
      events := events + [r.value.1];
    }
    stop := Closed;
  }

  /** With handlers registered, a frame that decodes to `{}` or to a non-dict
      makes the first is_triggered raise TypeError and ends the loop; with no
      handler registered the same frame only logs the missing-handler
      warning. */
  lemma NonDictFrame<S>(hs: seq<PulseHandler<S>>, decode: Decoder, s: S, frame: string, rest: seq<string>)
    requires decode(frame).Some? && !IsNonEmptyDict(decode(frame).value)
    ensures |hs| > 0 ==>
      Run(hs, decode, s, [frame] + rest) == Outcome([], 1, Raised(TypeError(NotANonEmptyDict)), s)
    ensures Step([], decode, s, frame) == Success((s, MissingHandler(decode(frame).value)))
  {
    if |hs| > 0 {
      assert FirstRaise(hs, decode(frame).value, 0, TypeError(NotANonEmptyDict));
      assert ([frame] + rest)[0] == frame;
    }
  }

  /** Without handlers nothing is ever sent and no action runs: every
      decodable frame logs one warning about its own message, and only a
      frame json.loads rejects can end the loop early. */
  lemma {:induction false} NoHandlersOnlyWarn<S>(decode: Decoder, s: S, frames: seq<string>)
    ensures var o := Run([], decode, s, frames);
      && |o.events| <= |frames|
      && o.state == s
      && (forall i | 0 <= i < |o.events| ::
            decode(frames[i]).Some? && o.events[i] == MissingHandler(decode(frames[i]).value))
      && (o.stop.Raised? ==> o.stop.error == JSONDecodeError)
    decreases |frames|
  {
    if |frames| > 0 && decode(frames[0]).Some? {
      NoHandlersOnlyWarn(decode, s, frames[1..]);
      var o, rest := Run([], decode, s, frames), Run([], decode, s, frames[1..]);
      assert o == Outcome([MissingHandler(decode(frames[0]).value)] + rest.events,
                          rest.received + 1, rest.stop, rest.state);
      forall i | 0 < i < |o.events|
        ensures decode(frames[i]).Some? && o.events[i] == MissingHandler(decode(frames[i]).value)
      {
        assert frames[i] == frames[1..][i - 1];
        assert o.events[i] == rest.events[i - 1];
      }
    }
  }

  /** When two handlers would both trigger, the later one's action is never
      selected. */
  lemma EarlierHandlerWins<S>(hs: seq<PulseHandler<S>>, message: Json, a: nat, b: nat)
    requires a < b < |hs|
    requires IsTriggered(hs[a], message) == Success(true)
    requires IsTriggered(hs[b], message) == Success(true)
    ensures SelectHandler(hs, message) != Success(Some(b))
    ensures !FirstMatch(hs, message, b)
  {
  }

  /** A `["type"] == "ping"` handler answering `{"type":"pong"}`: one ping
      frame gives exactly one sent frame, the pong. */
  lemma PingGetsPong<S>(ping: string, pong: string, decode: Decoder, action: Action<S>, s: S, s': S)
    requires decode(ping) == Some(Obj(map["type" := Str("ping")]))
    requires action(s, ping) == Success((s', pong))
    ensures var h := PulseHandler(ActivateObject(["type"], Str("ping")), action);
      Run([h], decode, s, [ping]) == Outcome([Sent(pong)], 1, Closed, s')
  {
    var h := PulseHandler(ActivateObject(["type"], Str("ping")), action);
    var message := Obj(map["type" := Str("ping")]);
    TypeHandlerTriggers(h, message);
    assert FirstMatch([h], message, 0);
    assert Step([h], decode, s, ping) == Success((s', Sent(pong)));
    RunFirstFrame([h], decode, s, [ping]);
    assert [ping][1..] == [];
  }

  /** An action that changes its state and then raises: the loop ends with
      that exception after the one frame, the later frames are never
      received, and the change the action made is kept. */
  lemma RaisingActionKeepsItsChanges<S>(ping: string, later: seq<string>, decode: Decoder,
                                        action: Action<S>, s: S, s': S, e: Exception)
    requires decode(ping) == Some(Obj(map["type" := Str("ping")]))
    requires action(s, ping) == Failure(Raising(s', e))
    ensures var h := PulseHandler(ActivateObject(["type"], Str("ping")), action);
      Run([h], decode, s, [ping] + later) == Outcome([], 1, Raised(e), s')
  {
    var h := PulseHandler(ActivateObject(["type"], Str("ping")), action);
    var message := Obj(map["type" := Str("ping")]);
    TypeHandlerTriggers(h, message);
    assert FirstMatch([h], message, 0);
    assert ([ping] + later)[0] == ping;
    assert Step([h], decode, s, ping) == Failure(Raising(s', e));
    RunFirstFrame([h], decode, s, [ping] + later);
  }

  /** A frame whose type no handler expects gives no sent frame and one
      missing-handler warning, and runs no action. */
  lemma UnknownTypeOnlyWarns<S>(unknown: string, decode: Decoder, action: Action<S>, s: S)
    requires decode(unknown) == Some(Obj(map["type" := Str("unknown")]))
    ensures var h := PulseHandler(ActivateObject(["type"], Str("ping")), action);
      Run([h], decode, s, [unknown]) ==
        Outcome([MissingHandler(Obj(map["type" := Str("unknown")]))], 1, Closed, s)
  {
    var h := PulseHandler(ActivateObject(["type"], Str("ping")), action);
    var message := Obj(map["type" := Str("unknown")]);
    TypeHandlerTriggers(h, message);
    assert NoneMatch([h], message);
    assert Step([h], decode, s, unknown) == Success((s, MissingHandler(message)));
    RunFirstFrame([h], decode, s, [unknown]);
    assert [unknown][1..] == [];
  }
}

=== FILE: python.dfy ===
/** The Python values the dispatcher manipulates: the objects `json.loads`
    produces (floats excluded), their truth value, Python's `==` on them, and
    the exceptions the modelled code can raise. */
module Python {

  /** A decoded JSON document. JSON object keys are always strings; a dict is
      modelled as a map, so key order does not exist (Python dict equality
      ignores it too). */
  datatype Json =
    | Null
    | Bool(b: bool)
    | Int(i: int)
    | Str(s: string)
    | Arr(items: seq<Json>)
    | Obj(fields: map<string, Json>)

  /** Why a `TypeError` was raised. */
  datatype TypeErrorCause =
    | NotANonEmptyDict   // the guard of should_trigger
    | NotIterable        // `key in x` where x is None, a bool or an int
    | NonIntegerIndex    // `x[key]` with a string key on a list or a string

  /** The exceptions that end a connection's receive loop. */
  datatype Exception =
    | TypeError(cause: TypeErrorCause)
    | JSONDecodeError        // json.loads rejected the frame
    | ActionError(name: string)  // whatever a handler's action raises

  /** Python's `bool(x)`: None, False, 0, "", [] and {} are falsy. */
  predicate Truthy(j: Json) {
    match j
    case Null => false
    case Bool(b) => b
    case Int(i) => i != 0
    case Str(s) => |s| > 0
    case Arr(xs) => |xs| > 0
    case Obj(m) => |m| > 0
  }

  /** The values that are Python ints: `bool` is a subclass of `int`. */
  predicate IsNumeric(j: Json) {
    j.Bool? || j.Int?
  }

  /** The integer a Python int or bool stands for: True is 1, False is 0. */
  function NumValue(j: Json): int
    requires IsNumeric(j)
  {
    match j
    case Bool(b) => if b then 1 else 0
    case Int(i) => i
  }

  /** Python's `a == b` on decoded JSON: numbers compare by value (so
      `True == 1` and `False == 0`), lists element-wise, dicts by key set and
      per-key value, and values of unrelated types are unequal. */
  predicate PyEq(a: Json, b: Json) {
    match a
    case Null => b.Null?
    case Str(x) => b.Str? && b.s == x
    case Arr(xs) =>
      && b.Arr?
      && |xs| == |b.items|
      && forall i | 0 <= i < |xs| :: PyEq(xs[i], b.items[i])
    case Obj(m) =>
      && b.Obj?
      && m.Keys == b.fields.Keys
      && forall k | k in m :: PyEq(m[k], b.fields[k])
    case _ => IsNumeric(b) && NumValue(a) == NumValue(b)
  }

  /** Reference semantics for `==`: rewrite every bool into the int it stands
      for; two values are Python-equal exactly when their rewrites are the
      same value. */
  function Canon(j: Json): Json {
    match j
    case Bool(b) => Int(if b then 1 else 0)
    case Arr(xs) => Arr(seq(|xs|, i requires 0 <= i < |xs| => Canon(xs[i])))
    case Obj(m) => Obj(map k | k in m :: Canon(m[k]))
    case _ => j
  }

  /** A value in which no bool occurs, at any depth. */
  predicate BoolFree(j: Json) {
    match j
    case Bool(_) => false
    case Arr(xs) => forall i | 0 <= i < |xs| :: BoolFree(xs[i])
    case Obj(m) => forall k | k in m :: BoolFree(m[k])
    case _ => true
  }

  /** Python `==` coincides with equality of the bool-free rewrites. */
  lemma {:induction false} PyEqIsCanonEq(a: Json, b: Json)
    ensures PyEq(a, b) <==> Canon(a) == Canon(b)
    decreases a
  {
    match a
    case Arr(xs) =>
      if b.Arr? && |xs| == |b.items| {
        var ys := b.items;
        forall i | 0 <= i < |xs|
          ensures PyEq(xs[i], ys[i]) <==> Canon(xs[i]) == Canon(ys[i])
        {
          PyEqIsCanonEq(xs[i], ys[i]);
        }
        if Canon(a) == Canon(b) {
          forall i | 0 <= i < |xs|
            ensures Canon(xs[i]) == Canon(ys[i])
          {
            assert Canon(a).items[i] == Canon(b).items[i];
          }
        }
      } else if b.Arr? {
        assert |Canon(a).items| != |Canon(b).items|;
      }
    case Obj(m) =>
      if b.Obj? && m.Keys == b.fields.Keys {
        var n := b.fields;
        forall k | k in m
          ensures PyEq(m[k], n[k]) <==> Canon(m[k]) == Canon(n[k])
        {
          PyEqIsCanonEq(m[k], n[k]);
        }
        if Canon(a) == Canon(b) {
          forall k | k in m
            ensures Canon(m[k]) == Canon(n[k])
          {
            assert Canon(a).fields[k] == Canon(b).fields[k];
          }
        }
      } else if b.Obj? {
        assert Canon(a).fields.Keys == m.Keys;
        assert Canon(b).fields.Keys == b.fields.Keys;
      }
    case _ =>
  }

  /** Python `==` is an equivalence relation on decoded JSON. */
  lemma PyEqIsEquivalence(a: Json, b: Json, c: Json)
    ensures PyEq(a, a)
    ensures PyEq(a, b) ==> PyEq(b, a)
    ensures PyEq(a, b) && PyEq(b, c) ==> PyEq(a, c)
  {
    PyEqIsCanonEq(a, a);
    PyEqIsCanonEq(a, b);
    PyEqIsCanonEq(b, a);
    PyEqIsCanonEq(b, c);
    PyEqIsCanonEq(a, c);
  }

  /** Rewriting bools changes nothing in a bool-free value. */
  lemma {:induction false} CanonOfBoolFree(j: Json)
    requires BoolFree(j)
    ensures Canon(j) == j
    decreases j
  {
    match j
    case Arr(xs) =>
      forall i | 0 <= i < |xs|
        ensures Canon(xs[i]) == xs[i]
      {
        CanonOfBoolFree(xs[i]);
      }
      assert Canon(j).items == xs;
    case Obj(m) =>
      forall k | k in m
        ensures Canon(m[k]) == m[k]
      {
        CanonOfBoolFree(m[k]);
      }
      assert Canon(j).fields == m;
    case _ =>
  }

  /** Without bools anywhere, Python `==` is plain structural equality. */
  lemma BoolFreePyEqIsEquality(a: Json, b: Json)
    requires BoolFree(a) && BoolFree(b)
    ensures PyEq(a, b) <==> a == b
  {
    PyEqIsCanonEq(a, b);
    CanonOfBoolFree(a);
    CanonOfBoolFree(b);
  }

  /** Equality is strict about truth value: a falsy value never equals a
      truthy one, so `0 == 1` and `False == True` fail, while Python's own
      `1 == True` and `0 == False` hold. */
  lemma PyEqPreservesTruthiness(a: Json, b: Json)
    ensures PyEq(a, b) ==> Truthy(a) == Truthy(b)
    ensures !PyEq(Int(0), Int(1)) && !PyEq(Bool(false), Bool(true))
    ensures PyEq(Int(1), Bool(true)) && PyEq(Int(0), Bool(false))
  {
    if PyEq(a, b) && a.Obj? {
      assert a.fields.Keys == b.fields.Keys;
      assert |a.fields| == |a.fields.Keys|;
      assert |b.fields| == |b.fields.Keys|;
    }
  }

  /** None and strings are only ever equal to themselves. */
  lemma PyEqNullOrStr(a: Json, b: Json)
    requires b.Null? || b.Str?
    ensures PyEq(a, b) <==> a == b
  {
  }
}

=== FILE: wrappers.dfy ===
/** Failure-compatible wrappers used by the rest of the model: an optional value,
    and a Python call that either returns a value or raises an exception. */
module Wrappers {

  datatype Option<+T> = None | Some(value: T)

  /** The outcome of a Python call: it returns `value`, or it raises `error`. */
  datatype Result<+T, +E> = Success(value: T) | Failure(error: E) {

    predicate IsFailure() {
      Failure?
    }

    function PropagateFailure<U>(): Result<U, E>
      requires Failure?
    {
      Failure(error)
    }

    function Extract(): T
      requires Success?
    {
      value
    }
  }
}
